=== FILE: README.md ===
# Escher request sampler — a Dafny model

This project models the decision logic of a JMeter sampler that sends
Escher-signed HTTP requests through a Spring `RestTemplate`:

- which headers the signing interceptor asks the Escher signer to bind (the
  date header and `host`, plus `Content-Type` for every method but GET), the
  view of the request the signer reads, and how the headers it produces are
  appended to the request;
- the interceptor chain the template builder assembles (signing first, the
  debug logger only when debugging is on), and the three logging
  interceptors, which pass the downstream response or exception through
  unchanged;
- the sampler's default parameters, its request-body construction, and how
  one exchange becomes a sample result (code, message, data, success flag).

The Escher signer and the transport are parameters (Dafny function values),
so every property holds for every signer and every network behaviour.

Modules, one per file:

| file | module | contents |
|---|---|---|
| common.dfy | `Common` | `Option`, `Result`, ASCII case folding, `Integer.toString` and its inverse |
| headers.dfy | `Headers` | Spring's `HttpHeaders` as an ordered, case-insensitive multimap |
| http.dfy | `Http` | methods, requests, responses, faults |
| signing.dfy | `Signing` | the signing interceptor `EscherClientHttpRequestInterceptor` |
| chain.dfy | `Chain` | `build`, the chain run, the logging interceptors |
| sampler.dfy | `Sampler` | `EscherRequestSampler` |

Where the system's documentation and the code disagree, the model follows
the code. The documentation says that signing a request twice overwrites the
date and authentication headers, but the interceptor calls `HttpHeaders.add`,
which appends. `Signing.SignTwiceAppends` and `Signing.SignTwiceDuplicatesDate`
state what the code does: if the signer adds a date header on both calls,
the request ends up with two date values.

A response entity without a body (a 204, say) is not recorded as a
success: the sampler hands the null body to JMeter's `setResponseData`,
which throws, and the generic catch block records code "-1". When that
exception carries no message, the catch block's own data call throws again
and the exception leaves `runTest` after the sample was ended.
`Sampler.BodilessResponseFails` states this.

## Model

| member | source | states |
|---|---|---|
| `Signing.SignedHeaders` | src/main/java/pecc/EscherRestTemplateBuilder.java:109-114 | The signed names start with the configured date header "X-Ems-Date" and then "host". "Content-Type" is among them iff the method name is not exactly "GET". There are 3 names then, and 2 otherwise. |
| `Signing.ContentTypeSignedIff` | src/main/java/pecc/EscherRestTemplateBuilder.java:112-114 | For a request, "Content-Type" is signed iff the request has a method and that method is not GET. |
| `Signing.NullMethodSignedAsGet` | src/main/java/pecc/EscherRestTemplateBuilder.java:81 | A request whose method is null is shown to the signer as "GET", and only the date header and host are signed. |
| `Http.MethodNameGet` | src/main/java/pecc/EscherRestTemplateBuilder.java:112 | Among Spring's method constants, only GET has the name "GET". |
| `Headers.FirstValuesView` | src/main/java/pecc/EscherRestTemplateBuilder.java:90-93 | The signer's header view has one pair per header, in map order, with no two names equal up to case. Each pair carries the first element of that name's value list. |
| `Headers.AddKeepsView` | src/main/java/pecc/EscherRestTemplateBuilder.java:90-99 | Adding a header never changes the view of the headers already there. A new name only extends the view at the end. |
| `Headers.Add` | src/main/java/pecc/EscherRestTemplateBuilder.java:96-100 | `addHeader` appends the value to the list of the name, compared up to case. Every other name keeps its list. Existing entries keep their names and first values. The map grows by one entry only for a new name, and keeps one entry per name. |
| `Headers.AddAllValues` | src/main/java/pecc/EscherRestTemplateBuilder.java:96-100 | After a series of `addHeader` calls, each name holds its old values followed by the added values for that name, in call order. Nothing is replaced. |
| `Headers.AddAllDistinct` | src/main/java/pecc/EscherRestTemplateBuilder.java:96-100 | A series of `addHeader` calls keeps at most one entry per name. |
| `Headers.Single` | src/main/java/pecc/EscherRequestSampler.java:98-99 | `set` on fresh headers gives one entry, holding exactly that value under that name. |
| `Signing.EffectiveMethod` | src/main/java/pecc/EscherRestTemplateBuilder.java:81 | The method name the signer sees is "GET" iff the request has no method or its method is GET; otherwise it is the method's own name. |
| `Signing.ViewOf` | src/main/java/pecc/EscherRestTemplateBuilder.java:78-106 | The adapter shows the signer the effective method name (GET for none), the request's URI, the body, and one (name, first value) pair per header entry, in map order. |
| `Signing.Sign` | src/main/java/pecc/EscherRestTemplateBuilder.java:108-119 | The signer is called once, with the EMS settings, the view and the signed names. It fails iff the signer throws. An `EscherException` becomes the `IOException` "Escher failed to sign request" with the signer's message as cause; any other exception passes through unwrapped. On success, the signer's headers are appended: method and URI are unchanged, every name gains exactly its added values, the first-value view of existing headers is kept, and names stay distinct. |
| `Signing.SignTwiceAppends` | src/main/java/pecc/EscherRestTemplateBuilder.java:99 | Signing twice accumulates both rounds of added values behind the original ones. |
| `Signing.SignTwiceDuplicatesDate` | src/main/java/pecc/EscherRestTemplateBuilder.java:96-100 | If each round adds one date header (whatever else it adds, the auth header included), the request ends up with two date values, d1 then d2. |
| `Chain.Run` | src/main/java/pecc/EscherRestTemplateBuilder.java:108-121 | Running any chain sends the request at most once. Nothing is sent only when the signing interceptor threw: then an `IOException` outcome is the wrapped signing failure. Whatever is sent is the final request with the original body, and its transport outcome is returned. Method and URI are kept. Header lists only grow. A chain of loggers alone sends the request unchanged. |
| `Chain.SigningFirst` | src/main/java/pecc/EscherRestTemplateBuilder.java:108-121 | Behind the signing interceptor, a signing failure throws before anything downstream runs: nothing is sent and nothing is logged. Otherwise the rest of the chain runs on the signed request, after one debug line per added header. |
| `Chain.Build` | src/main/java/pecc/EscherRestTemplateBuilder.java:46-49 | The chain starts with the signing interceptor holding the given credentials. The debug logger is in the chain iff debugging is enabled. The chain has 2 entries then, and 1 otherwise. |
| `Chain.BuiltChainBehaviour` | src/main/java/pecc/EscherRestTemplateBuilder.java:29-51 | For the built template: if signing fails, the outcome is that fault, nothing is sent and nothing is logged. Otherwise the signed request is sent exactly once with the same body, its transport outcome is returned, and the log holds the added-header lines, followed when debugging by one exchange dump reporting the returned status (-1 when the transport threw). |
| `Chain.LoggerPassThrough` | src/main/java/pecc/EscherRestTemplateBuilder.java:134-201 | A logging interceptor returns the downstream outcome (response or exception) unchanged. It leaves the request and what is sent unchanged, and adds at most one line after the downstream lines. |
| `Chain.FailureLoggerFires` | src/main/java/pecc/EscherRestTemplateBuilder.java:139-147 | The failure-only logger writes a line iff there is no response or the status is an error. That line dumps the request as sent. |
| `Chain.SlimLoggerAlwaysFires` | src/main/java/pecc/EscherRestTemplateBuilder.java:162-170 | The slim logger always appends the method and URI line. |
| `Chain.DebugLoggerReportsStatus` | src/main/java/pecc/EscherRestTemplateBuilder.java:181-201 | The debug logger always appends one dump. It shows the request's headers as sent. It reports status -1 with no response headers when there is no response, and otherwise the response's status and headers. |
| `Chain.LoggersTransparent` | src/main/java/pecc/EscherRestTemplateBuilder.java:127-203 | Removing every logging interceptor from any chain changes neither the outcome, nor the final request, nor what is sent. |
| `Sampler.DefaultParameters` | src/main/java/pecc/EscherRequestSampler.java:41-52 | There are eight distinct parameters. Method is "POST", Content-Type is "application/json" and debuglogging is "false". Scope, key, secret, url and body are "". |
| `Sampler.ContextOf` | src/main/java/pecc/EscherRequestSampler.java:41-52 | A context made from arguments answers each parameter with the first argument of that name, and null when there is none. |
| `Sampler.SetupTest` | src/main/java/pecc/EscherRequestSampler.java:31-38 | The template signs with the scope, key and secret parameters. The debug logger is present iff debuglogging is "true" in any letter case. |
| `Sampler.DefaultsBehaviour` | src/main/java/pecc/EscherRequestSampler.java:43-50 | With the defaults: the template has no debug logger, the body is the empty entity, and the method is POST, for which Content-Type is signed. |
| `Sampler.CreateBody` | src/main/java/pecc/EscherRequestSampler.java:91-101 | The entity is the empty one (no body, no headers) iff the body parameter is null or empty. Otherwise it carries exactly that body and one header: Content-Type, holding the configured content type. |
| `Sampler.WhitespaceBodyIsSent` | src/main/java/pecc/EscherRequestSampler.java:103-105 | A body of one space is not blank. It is sent, with its Content-Type header. |
| `Sampler.CatchException` | src/main/java/pecc/EscherRequestSampler.java:79-84 | The generic catch block records an unsuccessful sample with code "-1" and the exception message. It returns iff that message is not null; a null message makes the data call throw out of the block. |
| `Sampler.Record` | src/main/java/pecc/EscherRequestSampler.java:69-84 | The code is in `Integer.toString`'s canonical form and reads back as the response status (for a response with a body), the raw status of a status exception, or -1 ("-1") otherwise. The sample is successful iff a response with a body came back. A returned sample's message and data are equal. An exception leaves the blocks iff a null text reaches `setResponseData` in the catch block: a bodiless response when the runtime's `NullPointerException` has no message, or another exception without a message. |
| `Sampler.RunTest` | src/main/java/pecc/EscherRequestSampler.java:55-89 | Every sample is started and ended, whether `runTest` returns or throws, for the exchange of the configured url, method and body. It throws iff a null text reaches the catch block's data call. It is successful iff a response with a body came back. The code is canonical decimal text: the response status, the raw status of a status exception, or "-1". The message is the response body, the exception's body text, the exception's message, or (for a bodiless response) the `NullPointerException`'s message. A returned sample's data equals its message. |
| `Sampler.BodilessResponseFails` | src/main/java/pecc/EscherRequestSampler.java:69-84 | A 204 response without a body gives an unsuccessful sample with code "-1", and `runTest` throws iff the runtime's `NullPointerException` has no message. |
| `Sampler.NotFoundSample` | src/main/java/pecc/EscherRequestSampler.java:74-78 | A status exception 404 with body "not found" is returned with code "404", data "not found", and an unsuccessful sample. |
| `Sampler.SampleCodeDeterminesStatus` | src/main/java/pecc/EscherRequestSampler.java:69 | Two successful samples with equal codes had equal statuses. |
| `Sampler.IsBlank` | src/main/java/pecc/EscherRequestSampler.java:103-105 | A body is blank iff it is null or the empty string; any non-empty text, whitespace included, is not blank. |
| `Common.IntToDecimal` | src/main/java/pecc/EscherRequestSampler.java:69 | `Integer.toString` gives a non-empty text that starts with '-' iff the value is negative, followed by decimal digits without a leading zero (and never "-0"). |
| `Common.CanonicalUnique` | src/main/java/pecc/EscherRequestSampler.java:69 | A canonical decimal text is the `Integer.toString` rendering of the value it reads as, so canonical form and readback together fix the response code. |
| `Common.IntDecimalRoundTrip` | src/main/java/pecc/EscherRequestSampler.java:69 | The decimal string `Integer.toString` produces reads back as the same integer. |

## Left out

- The Escher signing algorithm (canonicalisation, HMAC, the date and authentication header values) belongs to an external library. It is the `Signer` parameter: a function that returns the headers to add, or a failure message. The settings passed to it (auth header "X-Ems-Auth", date header "X-Ems-Date", prefix and vendor key "EMS", hash "SHA256") appear as the constant `EscherConfig`.
- The signer reads the request adapter lazily and can re-read the header view after adding its own date header. The model gives it the view taken before signing. `Headers.AddKeepsView` shows that later reads differ only by new names appended at the end.
- Headers a signer adds before it fails are not modelled. Errors the Escher library could raise are grouped as `EscherException` or one unchecked exception. After a failure the request is discarded, because the exception stops the chain.
- The adapter's `getBody` decodes the body bytes with the platform charset. The signer is given the bytes instead.
- The transport (Spring's `RestTemplate`, `HttpMethod.resolve`, the response error handler that turns 4xx/5xx responses into status exceptions, and the network) is left out. At the chain level it is the `Transport` parameter; at the sampler level it is the `Exchange` parameter. The `doExecute` override only logs and rethrows the same exception, so it changes no outcome and has no member.
- Log message formatting and logger levels are not modelled. Log lines are recorded as structured entries holding the data each message shows.
- The sample's wall-clock timing is reduced to started and ended flags. JMeter's encoding of the response data is not modelled; data is kept as text.
- Header names are compared after ASCII lower-casing. Spring lower-cases with an English locale, which also folds non-ASCII letters. `Boolean.parseBoolean` is likewise compared up to ASCII case.
- Spring's `getStatusCode` throws `IllegalArgumentException` for statuses `HttpStatus` does not list (520, say). In the source, the `finally` blocks of the failure-only logger (EscherRestTemplateBuilder.java:139) and the debug logger (:193) then throw, and that exception replaces the response. The model treats status as a plain integer: `IsError` is the 400–599 range and the debug logger reports the raw value. So `Chain.Run` (the transport's outcome is returned), `Chain.BuiltChainBehaviour` (with debugging on), `Chain.LoggerPassThrough`, `Chain.FailureLoggerFires`, `Chain.DebugLoggerReportsStatus` and `Chain.LoggersTransparent` hold of the source only for statuses `HttpStatus` knows. For any other status, a chain holding the failure-only or debug logger throws `IllegalArgumentException` instead, and that logger writes nothing.
- The message a `NullPointerException` carries depends on the Java runtime: null on the Java 8 target, a generated text on runtimes with helpful messages. It is the `npe` parameter of `Sampler.Record` and `Sampler.RunTest`. JMeter's `setResponseData` is not part of this model; it is taken to throw on null text, as it encodes the text to bytes.
- Statuses are unbounded integers instead of 32-bit `int`. Nothing here does arithmetic on them, so no wrap-around can occur.
- Header lists are non-empty by construction. Spring can hold an empty list (through `put`, `addAll` with an empty list, or changing a list `get` returned), but no code on this path creates one. This code uses only `add` and `set`, and `RestTemplate` copies the entity's non-empty lists. So the first-value view cannot fail.
- Concurrency between JMeter threads is not modelled: each sampler builds and owns its template.
- build.gradle.kts is build configuration and has no behaviour to model.

=== FILE: chain.dfy ===
/** The interceptor chain the template builder assembles, and the three
    logging interceptors. A chain runs front to back: each interceptor may
    work on the shared request, hands it on, and sees what came back; the
    end of the chain is the transport, an external function here. */
module Chain {
  import opened Common
  import opened Headers
  import opened Http
  import opened Signing

  /** The interceptors of the builder file: the signing one, the
      failure-only logger, the slim logger and the debug logger. */
  datatype Interceptor =
    | EscherSigning(credentials: Credentials)
    | FailureLogging
    | SlimLogging
    | Debugging

  predicate IsLogger(i: Interceptor) {
    !i.EscherSigning?
  }

  /** What the interceptors write to their loggers. */
  datatype LogEntry =
      /** debug level: one per header the signer adds */
    | AddingHeader(name: string, value: string)
      /** error level: the failure-only logger's request dump */
    | FailedRequest(httpMethod: Option<Method>, uri: string, headers: Headers<string>, body: seq<byte>)
      /** info level: the slim logger's request line */
    | RequestLine(httpMethod: Option<Method>, uri: string)
      /** info level: the debug logger's request and response dump */
    | ExchangeDump(httpMethod: Option<Method>, uri: string, headers: Headers<string>, body: seq<byte>,
                   status: int, responseHeaders: Headers<string>)

  /** A request handed to the transport, with its body. */
  datatype Sent = Sent(request: Request, body: seq<byte>)

  /** What running (part of) a chain produces: the outcome, the request as it
      stands once everything downstream has worked on it, what reached the
      transport, and the log lines in the order they were written. */
  datatype Trace = Trace(outcome: Outcome, request: Request, sent: seq<Sent>, log: seq<LogEntry>)

  /** The network call at the end of the chain. */
  type Transport = (Request, seq<byte>) -> Outcome

  /** The failure-only logger's condition: no response, or an error status. */
  predicate FailureWorthy(o: Outcome) {
    o.Threw? || IsError(o.response.status)
  }

  /** The status the debug logger reports: -1 when there is no response. */
  function ReportedStatus(o: Outcome): int {
    if o.Threw? then -1 else o.response.status
  }

  function ReportedHeaders(o: Outcome): Headers<string> {
    if o.Threw? then [] else o.response.headers
  }

  function AddingLog(fields: seq<Field<string>>): (r: seq<LogEntry>)
    ensures |r| == |fields|
    ensures forall i :: 0 <= i < |r| ==> r[i] == AddingHeader(fields[i].0, fields[i].1)
  {
    seq(|fields|, i requires 0 <= i < |fields| => AddingHeader(fields[i].0, fields[i].1))
  }

  /** What the signing interceptor throws when the signer fails: an
      `IOException` can only be the one wrapping an `EscherException`; any
      other exception is the signer's own. */
  predicate SigningFault(o: Outcome) {
    o.Threw? && (o.fault.IOFault? ==> o.fault.message == SignFailureMessage && o.fault.cause.Some?)
  }

  predicate AllLoggers(chain: seq<Interceptor>) {
    forall k :: 0 <= k < |chain| ==> IsLogger(chain[k])
  }

  /** Runs the chain on a request. Each interceptor hands the request on at
      most once; only a signing failure stops it from doing so. */
  function Run(chain: seq<Interceptor>, req: Request, body: seq<byte>, signer: Signer, transport: Transport): (t: Trace)
    ensures |t.sent| <= 1
    ensures t.sent == [] ==> SigningFault(t.outcome)
    ensures t.sent != [] ==> t.sent[0] == Sent(t.request, body) && t.outcome == transport(t.request, body)
    ensures t.request.httpMethod == req.httpMethod && t.request.uri == req.uri
    ensures forall n :: ValuesOf(req.headers, n) <= ValuesOf(t.request.headers, n)
    ensures Distinct(req.headers) ==> Distinct(t.request.headers)
    ensures AllLoggers(chain) ==> t.sent == [Sent(req, body)] && t.request == req
    decreases |chain|
  {
    if |chain| == 0 then
      Trace(transport(req, body), req, [Sent(req, body)], [])
    else
      var rest := chain[1..];
      assert AllLoggers(chain) ==> AllLoggers(rest);
      match chain[0]
      case EscherSigning(c) =>
        (match Sign(c, signer, req, body)
         case Failure(f) => Trace(Threw(f), req, [], [])
         case Success(s) =>
           var t := Run(rest, s.request, body, signer, transport);
           PrefixThrough(req.headers, s.request.headers, t.request.headers);
           t.(log := AddingLog(s.added) + t.log))
      case FailureLogging =>
        var t := Run(rest, req, body, signer, transport);
        var line := FailedRequest(t.request.httpMethod, t.request.uri, t.request.headers, body);
        t.(log := t.log + if FailureWorthy(t.outcome) then [line] else [])
      case SlimLogging =>
        var t := Run(rest, req, body, signer, transport);
        t.(log := t.log + [RequestLine(t.request.httpMethod, t.request.uri)])
      case Debugging =>
        var t := Run(rest, req, body, signer, transport);
        var dump := ExchangeDump(t.request.httpMethod, t.request.uri, t.request.headers, body,
                                 ReportedStatus(t.outcome), ReportedHeaders(t.outcome));
        t.(log := t.log + [dump])
  }

  lemma PrefixThrough(a: Headers<string>, b: Headers<string>, c: Headers<string>)
    requires forall n :: ValuesOf(a, n) <= ValuesOf(b, n)
    requires forall n :: ValuesOf(b, n) <= ValuesOf(c, n)
    ensures forall n :: ValuesOf(a, n) <= ValuesOf(c, n)
  {
  }

  /** `RestTemplate` with its interceptor list. */
  datatype Template = Template(interceptors: seq<Interceptor>)

  /** `EscherRestTemplateBuilder.build`: the signing interceptor first, then
      the debug logger when debugging is enabled. */
  function Build(scope: Option<string>, key: Option<string>, secret: Option<string>, enableDebug: bool): (r: Template)
    ensures 1 <= |r.interceptors| && r.interceptors[0] == EscherSigning(Credentials(scope, key, secret))
    ensures forall k :: 1 <= k < |r.interceptors| ==> IsLogger(r.interceptors[k])
    ensures Debugging in r.interceptors <==> enableDebug
    ensures |r.interceptors| == if enableDebug then 2 else 1
  {
    var signing := [EscherSigning(Credentials(scope, key, secret))];
    Template(if enableDebug then signing + [Debugging] else signing)
  }

  /** A template's exchange as far as the interceptors see it. */
  function Execute(template: Template, req: Request, body: seq<byte>, signer: Signer, transport: Transport): Trace {
    Run(template.interceptors, req, body, signer, transport)
  }

  /** A logging interceptor changes nothing downstream: the outcome, the
      request and what is sent are those of the rest of the chain, whose log
      lines come first. */
  lemma LoggerPassThrough(l: Interceptor, rest: seq<Interceptor>, req: Request, body: seq<byte>, signer: Signer, transport: Transport)
    requires IsLogger(l)
    ensures var t := Run([l] + rest, req, body, signer, transport);
      var u := Run(rest, req, body, signer, transport);
      && t.outcome == u.outcome && t.request == u.request && t.sent == u.sent
      && u.log <= t.log && |t.log| <= |u.log| + 1
  {
  }

  /** The failure-only logger writes its line exactly when there is no
      response or the response has an error status, and that line shows the
      request as it was sent. */
  lemma FailureLoggerFires(rest: seq<Interceptor>, req: Request, body: seq<byte>, signer: Signer, transport: Transport)
    ensures var t := Run([FailureLogging] + rest, req, body, signer, transport);
      var u := Run(rest, req, body, signer, transport);
      && (|t.log| == |u.log| + 1 <==> FailureWorthy(u.outcome))
      && (FailureWorthy(u.outcome) ==> t.log[|t.log| - 1] == FailedRequest(u.request.httpMethod, u.request.uri, u.request.headers, body))
  {
  }

  /** The slim logger always writes the request line. */
  lemma SlimLoggerAlwaysFires(rest: seq<Interceptor>, req: Request, body: seq<byte>, signer: Signer, transport: Transport)
    ensures var t := Run([SlimLogging] + rest, req, body, signer, transport);
      t.log == Run(rest, req, body, signer, transport).log + [RequestLine(req.httpMethod, req.uri)]
  {
  }

  /** The debug logger always writes its dump, reporting status -1 and no
      response headers when there is no response. */
  lemma DebugLoggerReportsStatus(rest: seq<Interceptor>, req: Request, body: seq<byte>, signer: Signer, transport: Transport)
    ensures var t := Run([Debugging] + rest, req, body, signer, transport);
      var u := Run(rest, req, body, signer, transport);
      && |t.log| == |u.log| + 1
      && t.log[|u.log|].ExchangeDump?
      && (u.outcome.Threw? ==> t.log[|u.log|].status == -1 && t.log[|u.log|].responseHeaders == [])
      && (u.outcome.Returned? ==> t.log[|u.log|].status == u.outcome.response.status)
      && t.log[|u.log|].headers == u.request.headers
      && (u.outcome.Returned? ==> t.log[|u.log|].responseHeaders == u.outcome.response.headers)
  {
  }

  /** The interceptors of a chain other than the loggers. */
  function Signers(chain: seq<Interceptor>): (r: seq<Interceptor>)
    ensures forall k :: 0 <= k < |r| ==> !IsLogger(r[k])
    ensures |r| <= |chain|
  {
    if |chain| == 0 then []
    else (if IsLogger(chain[0]) then [] else [chain[0]]) + Signers(chain[1..])
  }

  /** Taking every logger out of a chain changes neither the outcome nor the
      request nor what is sent. */
  lemma {:induction false} LoggersTransparent(chain: seq<Interceptor>, req: Request, body: seq<byte>, signer: Signer, transport: Transport)
    ensures var t := Run(chain, req, body, signer, transport);
      var u := Run(Signers(chain), req, body, signer, transport);
      t.outcome == u.outcome && t.request == u.request && t.sent == u.sent
    decreases |chain|
  {
    if |chain| > 0 {
      var rest := chain[1..];
      if IsLogger(chain[0]) {
        assert chain == [chain[0]] + rest;
        assert Signers(chain) == Signers(rest);
        LoggerPassThrough(chain[0], rest, req, body, signer, transport);
        LoggersTransparent(rest, req, body, signer, transport);
      } else {
        var c := chain[0].credentials;
        assert chain == [EscherSigning(c)] + rest;
        assert Signers(chain) == [EscherSigning(c)] + Signers(rest);
        SigningFirst(c, rest, req, body, signer, transport);
        SigningFirst(c, Signers(rest), req, body, signer, transport);
        match Sign(c, signer, req, body)
        case Failure(_) =>
        case Success(sg) =>
          LoggersTransparent(rest, sg.request, body, signer, transport);
      }
    }
  }

  /** A chain headed by the signing interceptor: a signing failure is thrown
      before anything downstream runs; otherwise the rest of the chain gets
      the signed request, after the signer's headers have been logged. */
  lemma SigningFirst(c: Credentials, rest: seq<Interceptor>, req: Request, body: seq<byte>, signer: Signer, transport: Transport)
    ensures var t := Run([EscherSigning(c)] + rest, req, body, signer, transport);
      var r := Sign(c, signer, req, body);
      && (r.Failure? ==> t == Trace(Threw(r.error), req, [], []))
      && (r.Success? ==> var u := Run(rest, r.value.request, body, signer, transport);
                         t == u.(log := AddingLog(r.value.added) + u.log))
  {
  }

  /** The built chain end to end: a signing failure stops everything (nothing
      is sent and nothing is logged, the debug logger included); otherwise
      the signed request goes to the transport exactly once with the same
      body, and its outcome is returned unchanged. */
  lemma BuiltChainBehaviour(scope: Option<string>, key: Option<string>, secret: Option<string>, enableDebug: bool,
                            req: Request, body: seq<byte>, signer: Signer, transport: Transport)
    ensures var t := Execute(Build(scope, key, secret, enableDebug), req, body, signer, transport);
      var r := Sign(Credentials(scope, key, secret), signer, req, body);
      && (r.Failure? ==> t.outcome == Threw(r.error) && t.sent == [] && t.log == [])
      && (r.Success? ==>
            && t.sent == [Sent(r.value.request, body)]
            && t.outcome == transport(r.value.request, body)
            && |t.log| == |r.value.added| + (if enableDebug then 1 else 0)
            && t.log[..|r.value.added|] == AddingLog(r.value.added)
            && (enableDebug ==> t.log[|t.log| - 1].ExchangeDump? && t.log[|t.log| - 1].status == ReportedStatus(t.outcome)))
  {
    var c := Credentials(scope, key, secret);
    var rest: seq<Interceptor> := if enableDebug then [Debugging] else [];
    assert Build(scope, key, secret, enableDebug).interceptors == [EscherSigning(c)] + rest;
    SigningFirst(c, rest, req, body, signer, transport);
    match Sign(c, signer, req, body)
    case Failure(_) =>
    case Success(s) =>
      var u := Run(rest, s.request, body, signer, transport);
      if enableDebug {
        assert rest == [Debugging] + [];
        DebugLoggerReportsStatus([], s.request, body, signer, transport);
        assert |u.log| == 1;
      }
      assert |u.log| == if enableDebug then 1 else 0;
      assert (AddingLog(s.added) + u.log)[..|s.added|] == AddingLog(s.added);
  }
}

=== FILE: common.dfy ===
/** Small shared vocabulary: optional values (Java's nullable references),
    success-or-failure results, ASCII case folding and the decimal rendering
    of integers that `Integer.toString` performs. */
module Common {

  /** A value that may be absent; `None` plays the role of Java's `null`. */
  datatype Option<+T> = None | Some(value: T) {

    /** The wrapped value, or `default` when absent. */
    function GetOr(default: T): T {
      match this
      case Some(v) => v
      case None => default
    }
  }

  /** Either a result or the error that replaced it. */
  datatype Result<+R, +E> = Success(value: R) | Failure(error: E)

  /** Lower-cases an ASCII upper-case letter and leaves every other character alone. */
  function LowerChar(c: char): char {
    if 'A' <= c <= 'Z' then (c as int + 32) as char else c
  }

  /** Character-wise ASCII lower-casing of a string. */
  function Lower(s: string): (r: string)
    ensures |r| == |s|
    ensures forall i :: 0 <= i < |s| ==> r[i] == LowerChar(s[i])
  {
    seq(|s|, i requires 0 <= i < |s| => LowerChar(s[i]))
  }

  /** `String.equalsIgnoreCase`, restricted to ASCII letters. */
  predicate EqualsIgnoreCase(a: string, b: string) {
    Lower(a) == Lower(b)
  }

  predicate IsDigit(c: char) {
    '0' <= c <= '9'
  }

  predicate AllDigits(s: string) {
    forall i :: 0 <= i < |s| ==> IsDigit(s[i])
  }

  function DigitChar(d: nat): (c: char)
    requires d < 10
    ensures IsDigit(c)
    ensures c as int - '0' as int == d
  {
    ('0' as int + d) as char
  }

  /** Decimal digits of a natural number, most significant first, without leading zeros. */
  function NatToDecimal(n: nat): (r: string)
    ensures 1 <= |r|
    ensures AllDigits(r)
    ensures 1 < |r| ==> r[0] != '0'
    ensures 0 < n ==> r != "0"
    decreases n
  {
    if n < 10 then [DigitChar(n)] else NatToDecimal(n / 10) + [DigitChar(n % 10)]
  }

  /** The shape of `Integer.toString`'s output: a minus sign only for a
      negative value, then decimal digits without a leading zero. */
  predicate Canonical(s: string) {
    var digits := if 0 < |s| && s[0] == '-' then s[1..] else s;
    && 1 <= |digits| && AllDigits(digits)
    && (1 < |digits| ==> digits[0] != '0')
    && (|digits| < |s| ==> digits != "0")
  }

  /** `Integer.toString`: a leading minus sign for negative values, then the digits. */
  function IntToDecimal(i: int): (r: string)
    ensures 1 <= |r|
    ensures r[0] == '-' <==> i < 0
    ensures Canonical(r)
  {
    if i < 0 then "-" + NatToDecimal(-i) else NatToDecimal(i)
  }

  /** Reads a digit string back as a natural number (the inverse of `NatToDecimal`). */
  function DecimalToNat(s: string): nat
    requires AllDigits(s)
    decreases |s|
  {
    if |s| == 0 then 0
    else DecimalToNat(s[..|s| - 1]) * 10 + (s[|s| - 1] as int - '0' as int)
  }

  /** Reads an optionally signed decimal string; `None` when it is not one. */
  function DecimalToInt(s: string): Option<int> {
    if |s| == 0 then None
    else if s[0] == '-' then
      if 1 < |s| && AllDigits(s[1..]) then Some(0 - DecimalToNat(s[1..]) as int) else None
    else if AllDigits(s) then Some(DecimalToNat(s))
    else None
  }

  lemma {:induction false} NatDecimalRoundTrip(n: nat)
    ensures DecimalToNat(NatToDecimal(n)) == n
    decreases n
  {
    if n >= 10 {
      var s := NatToDecimal(n);
      assert s[..|s| - 1] == NatToDecimal(n / 10);
      NatDecimalRoundTrip(n / 10);
    }
  }

  /** Every integer's decimal rendering reads back as that integer. */
  lemma IntDecimalRoundTrip(i: int)
    ensures DecimalToInt(IntToDecimal(i)) == Some(i)
  {
    if i < 0 {
      var d := NatToDecimal(-i);
      var s := "-" + d;
      assert s[1..] == d;
      NatDecimalRoundTrip(-i);
      assert DecimalToInt(s) == Some(0 - DecimalToNat(d) as int);
    } else {
      var s := NatToDecimal(i);
      assert IsDigit(s[0]);
      NatDecimalRoundTrip(i);
      assert DecimalToInt(s) == Some(DecimalToNat(s) as int);
    }
  }

  /** A digit string without a leading zero reads as a positive number
      unless it is "0". */
  lemma {:induction false} DecimalToNatPositive(d: string)
    requires 1 <= |d| && AllDigits(d) && d[0] != '0'
    ensures 1 <= DecimalToNat(d)
    decreases |d|
  {
    if 1 < |d| {
      var p := d[..|d| - 1];
      assert p[0] == d[0];
      DecimalToNatPositive(p);
    }
  }

  /** Reading a canonical digit string and rendering the number again gives
      back the same string. */
  lemma {:induction false} NatDecimalCanonical(d: string)
    requires 1 <= |d| && AllDigits(d) && (1 < |d| ==> d[0] != '0')
    ensures NatToDecimal(DecimalToNat(d)) == d
    decreases |d|
  {
    var n := DecimalToNat(d);
    if 1 < |d| {
      var p := d[..|d| - 1];
      assert p[0] == d[0];
      assert AllDigits(p);
      DecimalToNatPositive(p);
      NatDecimalCanonical(p);
      assert n / 10 == DecimalToNat(p) && n % 10 == d[|d| - 1] as int - '0' as int;
      assert d == p + [d[|d| - 1]];
    } else {
      assert d == [d[0]];
    }
  }

  /** A canonical decimal string is the only one that renders its value:
      together with the readback, `Canonical` fixes the text. */
  lemma CanonicalUnique(s: string, i: int)
    requires Canonical(s) && DecimalToInt(s) == Some(i)
    ensures s == IntToDecimal(i)
  {
    if s[0] == '-' {
      var d := s[1..];
      NatDecimalCanonical(d);
      DecimalToNatPositive(d);
      assert s == "-" + d;
    } else {
      NatDecimalCanonical(s);
    }
  }
}

=== FILE: headers.dfy ===
/** The header multimap Spring's `HttpHeaders` provides: an insertion-ordered
    map from header name to a non-empty list of values, whose names are
    compared without regard to case. */
module Headers {
  import opened Common

  /** One header name with its values. Every list `add` or `set` creates is
      non-empty, so the first value is held apart from the rest. */
  datatype Entry<V> = Entry(name: string, first: V, rest: seq<V>) {
    function Values(): seq<V> {
      [first] + rest
    }
  }

  /** Entries in insertion order. */
  type Headers<V> = seq<Entry<V>>

  /** A name-value pair, as the signer reads and writes them. */
  type Field<V> = (string, V)

  /** The case-insensitive identity of a header name. */
  function Key(name: string): string {
    Lower(name)
  }

  predicate SameName(a: string, b: string) {
    Key(a) == Key(b)
  }

  /** No two entries share a name, up to case. */
  predicate Distinct<V>(h: Headers<V>) {
    forall i, j :: 0 <= i < j < |h| ==> Key(h[i].name) != Key(h[j].name)
  }

  /** Position of the entry whose name has key `k`, searching from the front. */
  function IndexOfKey<V>(h: Headers<V>, k: string): (r: Option<nat>)
    ensures r.Some? ==> r.value < |h| && Key(h[r.value].name) == k
    ensures r.Some? ==> forall i :: 0 <= i < r.value ==> Key(h[i].name) != k
    ensures r.None? ==> forall i :: 0 <= i < |h| ==> Key(h[i].name) != k
    decreases |h|
  {
    if |h| == 0 then None
    else if Key(h[0].name) == k then Some(0)
    else match IndexOfKey(h[1..], k)
      case None => None
      case Some(j) => Some(j + 1)
  }

  function IndexOf<V>(h: Headers<V>, name: string): Option<nat> {
    IndexOfKey(h, Key(name))
  }

  /** `HttpHeaders.get` with an absent name read as the empty list. */
  function ValuesOf<V>(h: Headers<V>, name: string): seq<V> {
    match IndexOf(h, name)
    case Some(i) => h[i].Values()
    case None => []
  }

  /** The values the fields carry for `name`, in order. */
  function ValuesNamed<V>(fields: seq<Field<V>>, name: string): seq<V>
    decreases |fields|
  {
    if |fields| == 0 then []
    else (if SameName(fields[0].0, name) then [fields[0].1] else []) + ValuesNamed(fields[1..], name)
  }

  lemma IndexOfFirstMatch<V>(h: Headers<V>, k: string, i: nat)
    requires i < |h| && Key(h[i].name) == k
    requires forall j :: 0 <= j < i ==> Key(h[j].name) != k
    ensures IndexOfKey(h, k) == Some(i)
  {
  }

  /** The search looks at names only. */
  lemma IndexOfNamesOnly<V>(h: Headers<V>, g: Headers<V>, k: string)
    requires |h| == |g|
    requires forall i :: 0 <= i < |h| ==> h[i].name == g[i].name
    ensures IndexOfKey(h, k) == IndexOfKey(g, k)
  {
  }

  /** The headers holding only `value` under `name`: `set` on fresh headers. */
  function Single<V>(name: string, value: V): (r: Headers<V>)
    ensures Distinct(r)
    ensures ValuesOf(r, name) == [value]
    ensures forall n :: !SameName(n, name) ==> ValuesOf(r, n) == []
  {
    [Entry(name, value, [])]
  }

  /** `HttpHeaders.add`: appends `value` to the list of `name`, creating the
      entry at the end when the name is new. */
  function Add<V>(h: Headers<V>, name: string, value: V): (r: Headers<V>)
    ensures ValuesOf(r, name) == ValuesOf(h, name) + [value]
    ensures forall n :: !SameName(n, name) ==> ValuesOf(r, n) == ValuesOf(h, n)
    ensures |r| == if ValuesOf(h, name) == [] then |h| + 1 else |h|
    ensures forall i :: 0 <= i < |h| ==> r[i].name == h[i].name && r[i].first == h[i].first
    ensures Distinct(h) ==> Distinct(r)
  {
    match IndexOf(h, name)
    case Some(i) =>
      var r := h[i := h[i].(rest := h[i].rest + [value])];
      AppendInPlace(h, i, name, value);
      r
    case None =>
      var r := h + [Entry(name, value, [])];
      AppendEntry(h, name, value);
      r
  }

  lemma AppendInPlace<V>(h: Headers<V>, i: nat, name: string, value: V)
    requires IndexOf(h, name) == Some(i)
    ensures var r := h[i := h[i].(rest := h[i].rest + [value])];
      && ValuesOf(r, name) == ValuesOf(h, name) + [value]
      && forall n :: !SameName(n, name) ==> ValuesOf(r, n) == ValuesOf(h, n)
  {
    var r := h[i := h[i].(rest := h[i].rest + [value])];
    IndexOfNamesOnly(r, h, Key(name));
    assert r[i].Values() == h[i].Values() + [value];
    forall n | !SameName(n, name)
      ensures ValuesOf(r, n) == ValuesOf(h, n)
    {
      IndexOfNamesOnly(r, h, Key(n));
    }
  }

  lemma AppendEntry<V>(h: Headers<V>, name: string, value: V)
    requires IndexOf(h, name).None?
    ensures var r := h + [Entry(name, value, [])];
      && ValuesOf(r, name) == [value]
      && forall n :: !SameName(n, name) ==> ValuesOf(r, n) == ValuesOf(h, n)
  {
    var r := h + [Entry(name, value, [])];
    IndexOfFirstMatch(r, Key(name), |h|);
    forall n | !SameName(n, name)
      ensures ValuesOf(r, n) == ValuesOf(h, n)
    {
      match IndexOf(h, n)
      case Some(j) => IndexOfFirstMatch(r, Key(n), j);
      case None =>
    }
  }

  /** Adds the fields one after another, as the signer's `addHeader` calls do. */
  function AddAll<V>(h: Headers<V>, fields: seq<Field<V>>): (r: Headers<V>)
    ensures |h| <= |r|
    ensures forall i :: 0 <= i < |h| ==> r[i].name == h[i].name && r[i].first == h[i].first
    decreases |fields|
  {
    if |fields| == 0 then h
    else
      var h' := Add(h, fields[0].0, fields[0].1);
      assert |h| <= |h'|;
      AddAll(h', fields[1..])
  }

  /** Adding keeps one entry per name. */
  lemma {:induction false} AddAllDistinct<V>(h: Headers<V>, fields: seq<Field<V>>)
    requires Distinct(h)
    ensures Distinct(AddAll(h, fields))
    decreases |fields|
  {
    if |fields| > 0 {
      AddAllDistinct(Add(h, fields[0].0, fields[0].1), fields[1..]);
    }
  }

  /** Adding never replaces a value: each name ends up with its old values
      followed by the added ones, in order. */
  lemma {:induction false} AddAllValues<V>(h: Headers<V>, fields: seq<Field<V>>, n: string)
    ensures ValuesOf(AddAll(h, fields), n) == ValuesOf(h, n) + ValuesNamed(fields, n)
    decreases |fields|
  {
    if |fields| > 0 {
      var h' := Add(h, fields[0].0, fields[0].1);
      AddAllValues(h', fields[1..], n);
      if SameName(fields[0].0, n) {
        assert ValuesOf(h', n) == ValuesOf(h', fields[0].0);
        assert ValuesOf(h, n) == ValuesOf(h, fields[0].0);
      }
    }
  }

  /** The first-value view handed to the signer: one pair per entry, the
      name with the first element of its list. */
  function FirstValues<V>(h: Headers<V>): (r: seq<Field<V>>)
    ensures |r| == |h|
  {
    seq(|h|, i requires 0 <= i < |h| => (h[i].name, h[i].first))
  }

  /** In the view every name occurs once, in map order, paired with the
      first value `get` returns for it. */
  lemma FirstValuesView<V>(h: Headers<V>)
    requires Distinct(h)
    ensures forall i :: 0 <= i < |h| ==> FirstValues(h)[i].0 == h[i].name
    ensures forall i :: 0 <= i < |h| ==> [FirstValues(h)[i].1] == ValuesOf(h, FirstValues(h)[i].0)[..1]
    ensures forall i, j :: 0 <= i < j < |h| ==> !SameName(FirstValues(h)[i].0, FirstValues(h)[j].0)
  {
  }

  /** Appending values leaves the view of the existing headers untouched; a
      new name only extends it at the end. */
  lemma AddKeepsView<V>(h: Headers<V>, name: string, value: V)
    ensures FirstValues(h) <= FirstValues(Add(h, name, value))
    ensures ValuesOf(h, name) == [] ==> FirstValues(Add(h, name, value)) == FirstValues(h) + [(name, value)]
    ensures ValuesOf(h, name) != [] ==> FirstValues(Add(h, name, value)) == FirstValues(h)
  {
  }

  /** Adding several fields leaves the view of the existing headers untouched. */
  lemma AddAllKeepsView<V>(h: Headers<V>, fields: seq<Field<V>>)
    ensures FirstValues(h) <= FirstValues(AddAll(h, fields))
  {
  }
}

=== FILE: http.dfy ===
/** The HTTP values the interceptors see: a request with an optional method,
    a response, and the faults that replace a response. */
module Http {
  import opened Common
  import opened Headers

  newtype byte = x: int | 0 <= x < 256

  /** Spring's `HttpMethod` constants. */
  datatype Method = GET | HEAD | POST | PUT | PATCH | DELETE | OPTIONS | TRACE

  /** `HttpMethod.toString`: the constant's name. */
  function MethodName(m: Method): string {
    match m
    case GET => "GET"
    case HEAD => "HEAD"
    case POST => "POST"
    case PUT => "PUT"
    case PATCH => "PATCH"
    case DELETE => "DELETE"
    case OPTIONS => "OPTIONS"
    case TRACE => "TRACE"
  }

  /** Only `GET` is named "GET". */
  lemma MethodNameGet(m: Method)
    ensures MethodName(m) == "GET" <==> m == GET
  {
  }

  /** The outgoing request as an interceptor sees it; `getMethod` may be null.
      The body travels beside it as a byte sequence. */
  datatype Request = Request(httpMethod: Option<Method>, uri: string, headers: Headers<string>)

  /** A response the transport returned. Its body is absent for an empty response. */
  datatype Response = Response(status: int, headers: Headers<string>, body: Option<string>)

  /** `HttpStatus.isError`: the 4xx and 5xx series. */
  predicate IsError(status: int) {
    400 <= status < 600
  }

  /** An exception in place of a response: an `IOException` (with the message
      of its cause, if any) or any other exception (whose message may be null). */
  datatype Fault = IOFault(message: string, cause: Option<string>) | OtherFault(detail: Option<string>)

  /** What `execution.execute` ends with: a response, or a thrown fault. */
  datatype Outcome = Returned(response: Response) | Threw(fault: Fault)
}

=== FILE: sampler.dfy ===
/** The JMeter sampler: its default parameters, the template it sets up, the
    request body it builds, and how one exchange becomes a sample result. The
    exchange itself (method resolution, the template, the network) is an
    external function here. */
module Sampler {
  import opened Common
  import opened Headers
  import opened Signing
  import opened Chain

  const ScopeParam: string := "scope"
  const KeyParam: string := "key"
  const SecretParam: string := "secret"
  const UrlParam: string := "url"
  const MethodParam: string := "method"
  const BodyParam: string := "body"
  const ContentTypeParam: string := "Content-Type"
  const DebugParam: string := "debuglogging"

  /** The sampler's parameters by name; a missing one reads as null. */
  type Context = map<string, string>

  function Parameter(ctx: Context, name: string): Option<string> {
    if name in ctx then Some(ctx[name]) else None
  }

  /** Named arguments in the order they were added. */
  type Arguments = seq<(string, string)>

  /** The value of the first argument called `name`. */
  function ArgumentValue(args: Arguments, name: string): Option<string>
    decreases |args|
  {
    if |args| == 0 then None
    else if args[0].0 == name then Some(args[0].1)
    else ArgumentValue(args[1..], name)
  }

  /** `getDefaultParameters`: the eight parameters the sampler offers, in order. */
  function DefaultParameters(): (r: Arguments)
    ensures |r| == 8
    ensures forall i, j :: 0 <= i < j < |r| ==> r[i].0 != r[j].0
    ensures ArgumentValue(r, MethodParam) == Some("POST")
    ensures ArgumentValue(r, ContentTypeParam) == Some("application/json")
    ensures ArgumentValue(r, DebugParam) == Some("false")
    ensures forall p :: p in [ScopeParam, KeyParam, SecretParam, UrlParam, BodyParam] ==> ArgumentValue(r, p) == Some("")
  {
    var r := [ (ScopeParam, ""),
               (KeyParam, ""),
               (SecretParam, ""),
               (UrlParam, ""),
               (MethodParam, "POST"),
               (BodyParam, ""),
               (ContentTypeParam, "application/json"),
               (DebugParam, "false") ];
    assert forall i, j :: 0 <= i < j < |r| ==> r[i].0 != r[j].0;
    ArgumentValueFirst(r, 0);
    ArgumentValueFirst(r, 1);
    ArgumentValueFirst(r, 2);
    ArgumentValueFirst(r, 3);
    ArgumentValueFirst(r, 4);
    ArgumentValueFirst(r, 5);
    ArgumentValueFirst(r, 6);
    ArgumentValueFirst(r, 7);
    r
  }

  /** An argument's value is found when no earlier argument has its name. */
  lemma {:induction false} ArgumentValueFirst(args: Arguments, i: nat)
    requires i < |args|
    requires forall j :: 0 <= j < i ==> args[j].0 != args[i].0
    ensures ArgumentValue(args, args[i].0) == Some(args[i].1)
    decreases i
  {
    if i > 0 {
      ArgumentValueFirst(args[1..], i - 1);
    }
  }

  /** The context a sampler sees when it runs with exactly these arguments. */
  function ContextOf(args: Arguments): (ctx: Context)
    ensures forall name :: Parameter(ctx, name) == ArgumentValue(args, name)
    decreases |args|
  {
    if |args| == 0 then map[] else ContextOf(args[1..])[args[0].0 := args[0].1]
  }

  /** `Boolean.parseBoolean`: true only for "true", in any case. */
  predicate ParseBoolean(s: Option<string>) {
    s.Some? && EqualsIgnoreCase(s.value, "true")
  }

  /** `setupTest`: one template per sampler, built from the credentials and
      the debug flag. */
  function SetupTest(ctx: Context): (r: Template)
    ensures 1 <= |r.interceptors| && r.interceptors[0] == EscherSigning(Credentials(Parameter(ctx, ScopeParam), Parameter(ctx, KeyParam), Parameter(ctx, SecretParam)))
    ensures Debugging in r.interceptors <==> Parameter(ctx, DebugParam).Some? && Lower(Parameter(ctx, DebugParam).value) == "true"
  {
    Build(Parameter(ctx, ScopeParam), Parameter(ctx, KeyParam), Parameter(ctx, SecretParam),
          ParseBoolean(Parameter(ctx, DebugParam)))
  }

  /** `isBlank`: null or of length zero. Whitespace does not count as blank. */
  function IsBlank(s: Option<string>): (r: bool)
    ensures r <==> s == None || s == Some("")
    ensures s.Some? && 0 < |s.value| ==> !r
  {
    s.None? || |s.value| == 0
  }

  /** `HttpEntity<String>`: an optional body with its own headers, whose
      values may be null. */
  datatype Entity = Entity(body: Option<string>, headers: Headers<Option<string>>)

  /** `HttpEntity.EMPTY`. */
  const EmptyEntity: Entity := Entity(None, [])

  /** `createBody`: nothing for a blank body; otherwise the body with a
      `Content-Type` header set from the parameter of that name. */
  function CreateBody(ctx: Context): (r: Entity)
    ensures r == EmptyEntity <==> IsBlank(Parameter(ctx, BodyParam))
    ensures !IsBlank(Parameter(ctx, BodyParam)) ==>
      && r.body == Parameter(ctx, BodyParam)
      && |r.headers| == 1
      && Distinct(r.headers)
      && ValuesOf(r.headers, ContentTypeParam) == [Parameter(ctx, ContentTypeParam)]
  {
    var requestBody := Parameter(ctx, BodyParam);
    if IsBlank(requestBody) then EmptyEntity
    else Entity(requestBody, Single(ContentTypeParam, Parameter(ctx, ContentTypeParam)))
  }

  /** How `exchange` ends, as the sampler sees it: a response entity (whose
      body may be null), an `HttpStatusCodeException` with its raw status and
      body text, or any other exception with its (possibly null) message. */
  datatype ExchangeResult =
    | Completed(status: int, body: Option<string>)
    | StatusException(rawStatus: int, responseBody: string)
    | OtherException(message: Option<string>)

  /** The template's exchange for a URL, a method name and an entity. */
  type Exchange = (Option<string>, Option<string>, Entity) -> ExchangeResult

  /** The parts of JMeter's `SampleResult` the sampler sets; the clock is
      reduced to whether the sample was started and ended. The response
      message may be null; the response data is bytes and never null. */
  datatype SampleResult = SampleResult(
    started: bool,
    ended: bool,
    code: string,
    message: Option<string>,
    data: string,
    successful: bool)

  const NewSample: SampleResult := SampleResult(false, false, "", Some(""), "", false)

  /** How `runTest` ends: it returns the sample, or an exception leaves it
      (after the `finally` block has ended the sample). */
  datatype TestEnd = Returns(sample: SampleResult) | Throws(sample: SampleResult)

  /** The exchange `runTest` performs for this context. */
  function ExchangeFor(ctx: Context, exchange: Exchange): ExchangeResult {
    exchange(Parameter(ctx, UrlParam), Parameter(ctx, MethodParam), CreateBody(ctx))
  }

  /** `setResponseData(text, "UTF-8")`: JMeter encodes the text to bytes, so
      a null text throws a `NullPointerException` (`None` here). */
  function SetResponseData(s: SampleResult, text: Option<string>): (r: Option<SampleResult>)
    ensures r.Some? <==> text.Some?
    ensures r.Some? ==> r.value.data == text.value && r.value.(data := s.data) == s
  {
    if text.None? then None else Some(s.(data := text.value))
  }

  /** The `catch (Exception e)` block for an exception whose message is `m`:
      code "-1" and the message as message and data. A null message makes the
      data call throw again, and that exception leaves `runTest`. */
  function CatchException(s: SampleResult, m: Option<string>): (r: TestEnd)
    ensures r.Throws? <==> m.None?
    ensures !r.sample.successful && r.sample.code == "-1" && r.sample.message == m
    ensures r.Returns? ==> m == Some(r.sample.data)
    ensures r.sample.started == s.started && r.sample.ended == s.ended
  {
    var s1 := s.(successful := false, code := "-1", message := m);
    match SetResponseData(s1, m)
    case Some(s2) => Returns(s2)
    case None => Throws(s1)
  }

  /** The try and catch blocks of `runTest`. `npe` is the message the runtime
      gives a `NullPointerException`. A response without a body makes the
      data call in the try block throw, which the generic catch block then
      handles; the sample counts as a success only for a response with a
      body, and a returned sample's message and data agree. */
  function Record(s: SampleResult, x: ExchangeResult, npe: Option<string>): (r: TestEnd)
    ensures r.sample.started == s.started && r.sample.ended == s.ended
    ensures r.Throws? <==> (x.Completed? && x.body.None? && npe.None?) || (x.OtherException? && x.message.None?)
    ensures r.sample.successful <==> x.Completed? && x.body.Some?
    ensures r.Returns? ==> r.sample.message == Some(r.sample.data)
    ensures Canonical(r.sample.code)
    ensures x.Completed? && x.body.Some? ==> DecimalToInt(r.sample.code) == Some(x.status) && r.sample.message == x.body
    ensures x.Completed? && x.body.None? ==> r.sample.code == "-1" && r.sample.message == npe
    ensures x.StatusException? ==> DecimalToInt(r.sample.code) == Some(x.rawStatus) && r.sample.message == Some(x.responseBody)
    ensures x.OtherException? ==> r.sample.code == "-1" && DecimalToInt(r.sample.code) == Some(-1) && r.sample.message == x.message
  {
    IntDecimalRoundTrip(-1);
    assert IntToDecimal(-1) == "-1";
    match x
    case Completed(status, body) =>
      IntDecimalRoundTrip(status);
      var s1 := s.(code := IntToDecimal(status), message := body);
      (match SetResponseData(s1, body)
       case Some(s2) => Returns(s2.(successful := true))
       case None => CatchException(s1, npe))
    case StatusException(rawStatus, responseBody) =>
      IntDecimalRoundTrip(rawStatus);
      var s1 := s.(successful := false, code := IntToDecimal(rawStatus), message := Some(responseBody));
      Returns(SetResponseData(s1, Some(responseBody)).value)
    case OtherException(m) =>
      CatchException(s, m)
  }

  /** `runTest`: start the sample, exchange, record the outcome, and end
      the sample whichever way the exchange went. */
  function RunTest(ctx: Context, exchange: Exchange, npe: Option<string>): (r: TestEnd)
    ensures r.sample.started && r.sample.ended
    ensures var x := ExchangeFor(ctx, exchange);
      && (r.Throws? <==> (x.Completed? && x.body.None? && npe.None?) || (x.OtherException? && x.message.None?))
      && (r.sample.successful <==> x.Completed? && x.body.Some?)
      && (r.Returns? ==> r.sample.message == Some(r.sample.data))
      && (x.Completed? && x.body.Some? ==> DecimalToInt(r.sample.code) == Some(x.status) && r.sample.message == x.body)
      && (x.StatusException? ==> DecimalToInt(r.sample.code) == Some(x.rawStatus) && r.sample.message == Some(x.responseBody))
      && Canonical(r.sample.code)
      && (x.OtherException? || (x.Completed? && x.body.None?) ==> r.sample.code == "-1")
      && (x.OtherException? ==> r.sample.message == x.message)
      && (x.Completed? && x.body.None? ==> r.sample.message == npe)
  {
    var started := NewSample.(started := true);
    var r := Record(started, ExchangeFor(ctx, exchange), npe);
    r.(sample := r.sample.(ended := true))
  }

  /** The defaults set up a template without the debug logger, send no body,
      and ask for POST, whose content type is signed. */
  lemma DefaultsBehaviour()
    ensures SetupTest(ContextOf(DefaultParameters())).interceptors == [EscherSigning(Credentials(Some(""), Some(""), Some("")))]
    ensures CreateBody(ContextOf(DefaultParameters())) == EmptyEntity
    ensures Parameter(ContextOf(DefaultParameters()), MethodParam) == Some("POST")
    ensures ContentTypeHeader in SignedHeaders("POST")
  {
  }

  /** A body of spaces is not blank: it is sent, with its content type. */
  lemma WhitespaceBodyIsSent(ctx: Context)
    requires Parameter(ctx, BodyParam) == Some(" ")
    ensures CreateBody(ctx).body == Some(" ")
    ensures ValuesOf(CreateBody(ctx).headers, ContentTypeParam) == [Parameter(ctx, ContentTypeParam)]
  {
  }

  /** A 404 with body "not found" is returned as an unsuccessful sample with
      code "404" and that body. */
  lemma NotFoundSample(ctx: Context, exchange: Exchange, npe: Option<string>)
    requires ExchangeFor(ctx, exchange) == StatusException(404, "not found")
    ensures RunTest(ctx, exchange, npe).Returns?
    ensures RunTest(ctx, exchange, npe).sample.code == "404"
    ensures RunTest(ctx, exchange, npe).sample.data == "not found"
    ensures !RunTest(ctx, exchange, npe).sample.successful
  {
  }

  /** A 2xx response without a body is no success: the data call throws, the
      catch block records code "-1", and when the runtime gives that
      exception no message, a second one leaves `runTest`. */
  lemma BodilessResponseFails(ctx: Context, exchange: Exchange, npe: Option<string>)
    requires ExchangeFor(ctx, exchange) == Completed(204, None)
    ensures !RunTest(ctx, exchange, npe).sample.successful
    ensures RunTest(ctx, exchange, npe).sample.code == "-1"
    ensures RunTest(ctx, exchange, npe).Throws? <==> npe.None?
  {
  }

  /** Two successful samples with the same code came from the same status. */
  lemma SampleCodeDeterminesStatus(ctx1: Context, ctx2: Context, exchange: Exchange, npe: Option<string>)
    requires RunTest(ctx1, exchange, npe).sample.successful && RunTest(ctx2, exchange, npe).sample.successful
    requires RunTest(ctx1, exchange, npe).sample.code == RunTest(ctx2, exchange, npe).sample.code
    ensures ExchangeFor(ctx1, exchange).status == ExchangeFor(ctx2, exchange).status
  {
  }
}

=== FILE: signing.dfy ===
/** The Escher signing interceptor: which headers it asks the signer to bind,
    the view of the request the signer reads, how the signer's headers are
    added, and how a signing failure is reported. The signer itself is an
    external library and appears here only as a function that may fail. */
module Signing {
  import opened Common
  import opened Headers
  import opened Http

  /** The scope, access key and secret the interceptor was built with (any may be null). */
  datatype Credentials = Credentials(scope: Option<string>, key: Option<string>, secret: Option<string>)

  /** The fixed settings the interceptor gives the signer on every call. */
  datatype SignerConfig = SignerConfig(
    authHeaderName: string,
    dateHeaderName: string,
    algoPrefix: string,
    vendorKey: string,
    hashAlgo: string)

  const EscherConfig: SignerConfig := SignerConfig("X-Ems-Auth", "X-Ems-Date", "EMS", "EMS", "SHA256")

  const DateHeader: string := "X-Ems-Date"
  const HostHeader: string := "host"
  const ContentTypeHeader: string := "Content-Type"

  /** The message of the `IOException` that replaces a signing failure. */
  const SignFailureMessage: string := "Escher failed to sign request"

  /** What the signer reads through the request adapter: the method name,
      the URI, one (name, first value) pair per header, and the body. */
  datatype SignerView = SignerView(httpMethod: string, uri: string, headers: seq<Field<string>>, body: seq<byte>)

  /** How the signer can fail: with an `EscherException` (its message), or
      with any unchecked exception (its possibly null message). */
  datatype SignError = EscherError(message: string) | Unchecked(detail: Option<string>)

  /** The external signer: given its settings, the credentials, the view and
      the names to sign, either the headers it adds (in the order it adds
      them) or the exception it throws. */
  type Signer = (SignerConfig, Credentials, SignerView, seq<string>) -> Result<seq<Field<string>>, SignError>

  /** The method name the signer sees: a null method reads as GET. */
  function EffectiveMethod(m: Option<Method>): (r: string)
    ensures r == "GET" <==> m.None? || m.value == GET
    ensures m.Some? ==> r == MethodName(m.value)
  {
    MethodName(m.GetOr(GET))
  }

  /** The names to sign: the date header and `host`, then `Content-Type`
      unless the method name is exactly "GET". */
  function SignedHeaders(httpMethod: string): (r: seq<string>)
    ensures 2 <= |r| && r[0] == EscherConfig.dateHeaderName && r[1] == "host"
    ensures "Content-Type" in r <==> httpMethod != "GET"
    ensures |r| == if httpMethod == "GET" then 2 else 3
  {
    assert ContentTypeHeader[0] != DateHeader[0] && ContentTypeHeader[0] != HostHeader[0];
    [DateHeader, HostHeader] + (if httpMethod != "GET" then [ContentTypeHeader] else [])
  }

  /** The request adapter's view, taken before the signer adds anything. */
  function ViewOf(req: Request, body: seq<byte>): (v: SignerView)
    ensures v.httpMethod == "GET" <==> req.httpMethod.None? || req.httpMethod.value == GET
    ensures req.httpMethod.Some? ==> v.httpMethod == MethodName(req.httpMethod.value)
    ensures v.uri == req.uri && v.body == body
    ensures |v.headers| == |req.headers|
    ensures forall i :: 0 <= i < |v.headers| ==> v.headers[i].0 == req.headers[i].name && v.headers[i].1 == req.headers[i].Values()[0]
  {
    SignerView(EffectiveMethod(req.httpMethod), req.uri, FirstValues(req.headers), body)
  }

  /** The signer's call for this request. */
  function SignerCall(c: Credentials, signer: Signer, req: Request, body: seq<byte>): Result<seq<Field<string>>, SignError> {
    signer(EscherConfig, c, ViewOf(req, body), SignedHeaders(EffectiveMethod(req.httpMethod)))
  }

  /** A signed request together with the headers the signer added to it. */
  datatype Signed = Signed(request: Request, added: seq<Field<string>>)

  /** The interceptor's work before it hands the request on: call the signer
      once and append each header it produces, or turn an `EscherException`
      into an `IOException` with it as cause; any other exception the signer
      throws passes through as it is. */
  function Sign(c: Credentials, signer: Signer, req: Request, body: seq<byte>): (r: Result<Signed, Fault>)
    ensures r.Failure? <==> SignerCall(c, signer, req, body).Failure?
    ensures r.Failure? && SignerCall(c, signer, req, body).error.EscherError? ==>
      r.error == IOFault(SignFailureMessage, Some(SignerCall(c, signer, req, body).error.message))
    ensures r.Failure? && SignerCall(c, signer, req, body).error.Unchecked? ==>
      r.error == OtherFault(SignerCall(c, signer, req, body).error.detail)
    ensures r.Success? ==> r.value.added == SignerCall(c, signer, req, body).value
    ensures r.Success? ==> r.value.request.httpMethod == req.httpMethod && r.value.request.uri == req.uri
    ensures r.Success? ==> forall n :: ValuesOf(r.value.request.headers, n) == ValuesOf(req.headers, n) + ValuesNamed(r.value.added, n)
    ensures r.Success? ==> FirstValues(req.headers) <= FirstValues(r.value.request.headers)
    ensures r.Success? && Distinct(req.headers) ==> Distinct(r.value.request.headers)
  {
    match SignerCall(c, signer, req, body)
    case Failure(EscherError(m)) => Failure(IOFault(SignFailureMessage, Some(m)))
    case Failure(Unchecked(d)) => Failure(OtherFault(d))
    case Success(fields) =>
      AddAllEffect(req.headers, fields);
      Success(Signed(req.(headers := AddAll(req.headers, fields)), fields))
  }

  lemma AddAllEffect(h: Headers<string>, fields: seq<Field<string>>)
    ensures forall n :: ValuesOf(AddAll(h, fields), n) == ValuesOf(h, n) + ValuesNamed(fields, n)
    ensures FirstValues(h) <= FirstValues(AddAll(h, fields))
    ensures Distinct(h) ==> Distinct(AddAll(h, fields))
  {
    forall n
      ensures ValuesOf(AddAll(h, fields), n) == ValuesOf(h, n) + ValuesNamed(fields, n)
    {
      AddAllValues(h, fields, n);
    }
    AddAllKeepsView(h, fields);
    if Distinct(h) {
      AddAllDistinct(h, fields);
    }
  }

  /** `Content-Type` is signed exactly when the request has a method other than GET. */
  lemma ContentTypeSignedIff(req: Request, body: seq<byte>)
    ensures ContentTypeHeader in SignedHeaders(ViewOf(req, body).httpMethod)
        <==> req.httpMethod.Some? && req.httpMethod.value != GET
  {
  }

  /** A request without a method is presented to the signer as GET, so its
      content type is not signed. */
  lemma NullMethodSignedAsGet(uri: string, h: Headers<string>, body: seq<byte>)
    ensures ViewOf(Request(None, uri, h), body).httpMethod == "GET"
    ensures SignedHeaders(ViewOf(Request(None, uri, h), body).httpMethod) == [DateHeader, HostHeader]
  {
  }

  /** Signing a request twice keeps both rounds of added headers: the values
      accumulate instead of being replaced. */
  lemma SignTwiceAppends(c: Credentials, signer: Signer, req: Request, body: seq<byte>, s1: Signed, s2: Signed, n: string)
    requires Sign(c, signer, req, body) == Success(s1)
    requires Sign(c, signer, s1.request, body) == Success(s2)
    ensures ValuesOf(s2.request.headers, n) == ValuesOf(req.headers, n) + ValuesNamed(s1.added, n) + ValuesNamed(s2.added, n)
  {
  }

  /** So when the signer adds one date header on each call (whatever else it
      adds), the request ends up with two date values. */
  lemma SignTwiceDuplicatesDate(c: Credentials, signer: Signer, req: Request, body: seq<byte>,
                                s1: Signed, s2: Signed, d1: string, d2: string)
    requires Sign(c, signer, req, body) == Success(s1) && ValuesNamed(s1.added, DateHeader) == [d1]
    requires Sign(c, signer, s1.request, body) == Success(s2) && ValuesNamed(s2.added, DateHeader) == [d2]
    ensures ValuesOf(s2.request.headers, DateHeader) == ValuesOf(req.headers, DateHeader) + [d1, d2]
  {
    SignTwiceAppends(c, signer, req, body, s1, s2, DateHeader);
    AppendTwo(ValuesOf(req.headers, DateHeader), ValuesNamed(s1.added, DateHeader), ValuesNamed(s2.added, DateHeader), d1, d2);
  }

  /** The date values of the two rounds, in order. */
  lemma AppendTwo(a: seq<string>, b: seq<string>, c: seq<string>, d1: string, d2: string)
    requires b == [d1] && c == [d2]
    ensures a + b + c == a + [d1, d2]
  {
  }
}
